=== FILE: README.md ===
# Thin JS — a Dafny model of its selection, event and ready-queue logic

Thin JS is a tiny browser utility. `$( selector )` turns a CSS selector
string, a node or a node list into a collection of elements. The collection
has three methods:

- `each` calls a function on every element in turn.
- `bind` attaches a listener to every element.
- `live` attaches one delegating listener to the document.

`$.ready( fn )` runs `fn` once the document is ready. Callbacks registered
too early wait in a process-wide queue. The drain `doReady` empties that
queue when the host delivers DOMContentLoaded, a successful `doScroll` probe,
or the window `load` event.

The model treats the browser abstractly:

- Elements, callbacks and events are opaque numeric identities.
- The document's queries and `parentNode` are function inputs (`Host.Platform`).
- Everything the library does is recorded as data. A call records the
  function, its receiver (`this`) and its argument. A listener registration
  records the target, the event name and the listener.

Modules:

- `Host` (`host.dfy`): identities, `Option`, the exceptions the library can
  let escape, and the host's capabilities. The capabilities are whether
  `addEventListener` and `querySelectorAll` exist, plus the query and parent
  functions.
- `Selection` (`selection.dfy`): `$( selector )`.
- `Events` (`events.dfy`): `addEvent`, `each`, `bind`, `live`, the
  delegating handler and its scan, and what the host does when it delivers
  an event to each kind of listener. It also holds the listeners the
  library registers for the ready signals.
- `DomReady` (`ready.dfy`): `$.ready`, `doReady`, and the host steps that
  drive them.

A ready callback is modelled as a tree: `Callback(id, registers, throws)`.
`registers` lists the callbacks it passes to `$.ready` when it runs, in call
order. `throws` says whether it then throws. Two facts about the source drive
the model:

- The library tests `document.readyState === "complete"`. That is a property
  of the document, not of the queue. A callback registered after
  DOMContentLoaded has drained the queue, but before the document is
  complete, is queued. It runs on the later `load` signal.
- `while ( readyFunctions.length )` re-reads the length on every turn. A
  callback that calls `$.ready` during a drain in a non-complete document
  appends to the queue, so its argument runs later in the same drain. The
  drain is therefore breadth first. In a complete document the same call
  runs its argument at once, nested inside the caller, so the order is
  depth first.

An exception escaping a ready callback leaves the `while` loop. The callback
was already shifted off the queue, so it never runs again. The rest of the
queue stays queued and the next signal resumes the drain.

Facts about the source that shape the model:

- An exception from the `each` visitor escapes the `for` loop
  (thin.js:58-60). `Events.Each` stops at the first visitor that throws.
- There is no ready or fired flag. `$.ready` tests `document.readyState` on
  every call (thin.js:120), whether or not the queue has been drained.
  `DomReady.LateRegistrationRunsOnLoad` states the consequence.
- The library lets exceptions escape in these cases:
  - `$( null )` reads `nodeType` of null and throws a TypeError.
  - A selector text the host rejects makes the query throw.
  - The `live` handler throws a TypeError when the target has no parent.
  - The `live` handler hands `querySelectorAll` the handle's selector as
    it is. For a non-string selector the host converts it to text first
    (`String(sel)`, the `textOf` input of `Host.Platform`) and decides
    whether that text is valid: `$( false )` queries `"false"`, while a
    re-wrapped `NodeList` queries `"[object NodeList]"`, which the host
    rejects.

  The model returns these as `Raised` or `Failed` values.

The ready signals reach the drain as follows. `Events.ReadyWiring` lists the
listeners the library registers for DOMContentLoaded and `load`;
`Events.Deliver` gives `ReadySignal` for them and for nothing else. In
`DomReady`, a `Fires(signal)` host step stands for one such delivery, and
for one turn of the `doScroll` probe whose `doScroll` call succeeded: each
runs `doReady` once.

## Model

| member | source | states |
|---|---|---|
| Selection.Resolve | thin.js:34-51 | The result depends on the selector kind. A string gives the document's matches. With no `querySelectorAll` a string gives an empty collection and never fails. A node gives a one-element collection. A non-empty list is the caller's own list, passed through. An empty list or any other object gives a fresh empty collection. null or undefined raises a TypeError, and selector text the host rejects raises a SyntaxError. |
| Selection.TextWithoutQueryIsEmpty | thin.js:35-43 | On a host without `querySelectorAll`, every string selector resolves, to the empty collection. |
| Selection.RewrapKeepsElements | thin.js:48-51 | Wrapping the elements of any collection `$` returned gives the same elements back. It is the same list exactly when that collection is non-empty. |
| Events.AddEvent | thin.js:16-25 | Exactly one listener is registered, on the given target, carrying the given handler. It is native exactly when `addEventListener` exists. Otherwise it is the legacy wrapper under the name prefixed with `on`. |
| Events.Deliver | thin.js:10-25 | A bound listener makes exactly one call per delivered event: of its registered function, with the event as argument, and with the element it is attached to as receiver natively, or the event target through the legacy wrapper. A delegating listener behaves as the `live` handler. The ready wiring's listener, and only it, runs the drain. |
| Events.BoundListenerReceiver | thin.js:10-25 | A listener `bind` registered on element `x` calls `fn` once, with the event as argument. The receiver is `x` natively and the event target through the legacy wrapper, so both give `x` for an event aimed at `x`. |
| Events.Each | thin.js:57-64 | The visitor runs on the elements in index order, and the effects are those of each visit in order. It returns the collection exactly when no visit throws. Otherwise it stops at the first visit that throws. |
| Events.EachCallback | thin.js:57-64 | `each(fn)` calls `fn` exactly `n` times when nothing throws. Call `i` has receiver `elements[i]` and argument `i`, and the collection is returned. A throwing call is the last one made. |
| Events.Bind | thin.js:71-75 | Exactly one `addEvent` registration for the event, on each element, in order, and nothing else. The collection is returned. |
| Events.Live | thin.js:82-99 | Exactly one registration: on the document, carrying the delegating handler with the handle's selector, and none on the elements. The collection is returned. |
| Events.LiveHandler | thin.js:83-95 | The handler calls `fn` at most once per event, always with the target as receiver. It calls it exactly when the target is itself among the parent's matches for the selector's text. It fails with a TypeError when there is no parent or no query support, and with a SyntaxError when the host rejects that text. It delivers exactly when there is a parent, query support and an accepted text. |
| Events.LiveDeliversAtMostOnce | thin.js:82-95 | An event delivered to the listener `live` registered calls `fn` once with the target as receiver when the target is among the matches, and otherwise calls nothing. |
| Events.RewrapReplacesLiveSelector | thin.js:48-95 | Passing a non-empty collection back to `$` gives the same elements, but the new `live` queries with the list itself as selector. When the host rejects the list's text, every event delivered to that listener fails. |
| Events.ScanMatches | thin.js:89-94 | The linear scan finds a match exactly when the target is in the match list. What it finds is the first element identical to the target. |
| Events.ReadyWiring | thin.js:128-149 | The library registers `load` on the window in every case, as `onload` on the legacy path. It registers `DOMContentLoaded` on the document only where `addEventListener` exists. Each listener runs the drain. |
| Events.WiringOnlySignalsReady | thin.js:129-149 | Whatever event reaches a ready-wiring listener, the drain runs and nothing else does. |
| DomReady.Invoke | thin.js:111 | Running a ready callback records it first. In a non-complete document its `$.ready` calls append to the queue and it throws iff it throws. In a complete document the queue is untouched and its whole registration tree runs depth first, unless something in the tree throws. |
| DomReady.Ready | thin.js:119-126 | When `readyState` is `"complete"` the callback runs at once, the queue is unchanged, and the trace grows by its tree in depth-first order. Otherwise the callback is appended to the end of the queue and nothing runs. |
| DomReady.ReadyAll | thin.js:119-126 | A callback's successive `$.ready` calls append all their arguments in order when the document is not complete. When it is complete, they run the trees in depth-first order and stop at the first exception. |
| DomReady.DoReady | thin.js:108-113 | The drain leaves `readyState` alone and only extends the trace. Unless a callback throws, it ends with an empty queue. On an empty queue it changes nothing. |
| DomReady.DrainIsFifo | thin.js:105-113 | In a non-complete document the drain is breadth first. The callbacks run, followed by those left queued, are exactly the callbacks queued followed by everything the ones that ran registered. So each queued callback runs at most once, in queue order; when the drain does not throw, each runs exactly once and the callbacks queued during the drain run in the same drain. A drain that throws leaves those callbacks queued. |
| DomReady.DrainStopsAtThrow | thin.js:108-113 | In a non-complete document only the last callback a drain runs can have thrown, and the drain throws exactly when that one did. |
| DomReady.DrainWhenComplete | thin.js:108-122 | In a complete document the drain throws exactly when something in the queued trees throws. Otherwise it runs the queued trees in depth-first order, queue order first, and empties the queue. When it throws, the queue left holds exactly the callbacks after the first tree that throws. |
| DomReady.CompleteDrainStrands | thin.js:108-122 | In a complete document with a throwing tree queued, the drain runs every quiet tree before the first throwing one in full and then enters that one. It throws, and leaves queued exactly the callbacks after it. The trace grows by at most the trees up to and including the throwing one, so none of the callbacks left queued ran. |
| DomReady.SignalAfterThrowStrandsRest | thin.js:108-113 | In a complete document whose first queued tree throws, one signal runs only that tree up to the exception and leaves the rest of the queue in place. |
| DomReady.DrainShortensWhenComplete | thin.js:108-113 | In a complete document a drain either empties the queue or leaves a strictly shorter suffix of it. |
| DomReady.DrainIdempotent | thin.js:109-112 | A drain that ran to the end, run again, changes nothing. |
| DomReady.Step | thin.js:119-149 | One host step: only `SetReadyState` changes `readyState`, which the library never writes, and it touches nothing else; no step shortens the trace of callbacks run. |
| DomReady.Run | thin.js:119-149 | Any sequence of host steps only ever adds to the trace of callbacks run. |
| DomReady.SignalsAfterDrainAreInert | thin.js:128-149 | Once the queue is empty, any sequence of further DOMContentLoaded, scroll-probe or load signals changes nothing. |
| DomReady.SignalsRunEachQueuedOnce | thin.js:105-149 | Over any sequence of signals in a non-complete document, even when callbacks throw and later signals resume the drain, the breadth-first equation holds. Each queued callback runs at most once, in queue order; exactly once when the final drain does not throw. |
| DomReady.SignalsMakeProgress | thin.js:108-149 | After `n` signals in a non-complete document, either the queue is empty or at least `n` callbacks have run. |
| DomReady.SignalsEmptyQueueWithinBound | thin.js:105-149 | In a non-complete document, as many signals as there are callbacks in the queued trees always empty the queue, however many drains throw. |
| DomReady.SignalsWhenComplete | thin.js:105-149 | In a complete document the queue left after any sequence of signals is a suffix of the original queue, shorter by at least one callback per signal until it is empty, so each queued callback leaves the queue at most once. |
| DomReady.OpenDrainWithinTrees | thin.js:105-113 | In a non-complete document, the callbacks a drain runs together with the trees it leaves queued count exactly the callbacks of the trees that were queued. |
| DomReady.CompleteDrainWithinTrees | thin.js:108-122 | In a complete document, the callbacks a drain runs together with the trees it leaves queued count at most the callbacks of the trees that were queued. |
| DomReady.DrainWithinTrees | thin.js:105-122 | Whatever `readyState` is, no callback a drain runs occurs more often than in the queued trees, counting those it leaves queued, and nothing else runs. |
| DomReady.SignalsRunWithinTrees | thin.js:105-149 | Across any signals, with `readyState` changing in any way between them (DOMContentLoaded while interactive, then complete, then `load`), no callback of the queued trees runs more often than it occurs in them, counting those still queued, and nothing else runs. So a drain that throws and is resumed after the document became complete runs no queued callback twice. |
| DomReady.BreadthFirstWithinTrees | thin.js:105-113 | The breadth-first equation, counted as callbacks: what ran plus the trees left queued is exactly the trees first queued. |
| DomReady.SizeAllRegistrations | thin.js:108-111 | The callbacks in a list of trees number the list's length plus the callbacks in everything the list registers. |
| DomReady.LateRegistrationRunsOnLoad | thin.js:119-149 | A callback registered after the queue was drained but before the document is complete is queued, not run. After `readyState` becomes `"complete"` and `load` fires, it runs, whether or not it throws, within its own tree, and the queue is empty. When nothing in its tree throws, the whole tree runs. |

## Left out

- Real DOM querying, CSS selector semantics, `parentNode` and the
  conversion of a value to text are inputs of the model (`Host.Platform`),
  because they are host behaviour.
- Event dispatch and bubbling are not modelled. Only a single delivery of
  one event to one registered listener is modelled (`Events.Deliver`).
  `addEventListener` and `attachEvent` are reduced to the registration they
  record.
- The `doScroll` probe and its `setTimeout` retry (thin.js:135-146) depend
  on host timers and host exceptions. The `try` wraps both `doScroll` and
  `doReady()`, so a drain that throws inside the probe is caught and the
  probe is scheduled again. A probe turn whose `doScroll` succeeds is one
  `Fires(ScrollProbe)` step, and a probe drain that throws is always
  followed by another such step; a turn whose `doScroll` throws runs
  nothing. The host timer that schedules the turns is not modelled;
  `DomReady.SignalsEmptyQueueWithinBound` and `DomReady.SignalsWhenComplete`
  bound how many turns the retrying takes.
- Exporting `window.$` (thin.js:152) and the minifier's string aliases
  (thin.js:4-7) are plumbing.
- Callback trees are finite. A page whose ready callbacks register new
  callbacks without end makes the source loop or overflow the stack; the
  model does not represent it. JavaScript's stack depth limit is not
  modelled.
- Ready callbacks are taken not to catch exceptions from their own
  `$.ready` calls. Page code such as `try { $.ready( g ) } catch ( e ) {}`
  inside a ready callback, in a complete document, would stop `g`'s
  exception there (thin.js:120-121), and `Callback` cannot express that. So
  the "throws exactly when something in the tree throws" statements of
  `DomReady.Invoke`, `DomReady.Ready`, `DomReady.ReadyAll`,
  `DomReady.DrainWhenComplete` and `DomReady.CompleteDrainStrands` cover
  only callbacks that do not catch.
- A ready callback's own receiver and the arguments it might receive are
  not recorded; the source calls it with none.
- Events.Each: the collection is taken as fixed for the whole loop. The
  source re-reads `elements.length` and `elements[i]` on every turn
  (thin.js:58-59), and the collection may be the caller's own list or a
  live node list, which a visitor could change; the model does not
  promise what such a change does.
- Events.EachCallback: the same fixed-collection assumption as
  `Events.Each`.
- Selection.RewrapKeepsElements: it speaks of the elements only. Passing a
  non-empty collection back to `$` returns that same object and overwrites
  its `each`, `bind` and `live` with closures over the new selector, the
  list itself (thin.js:48-51, 57-95); `Events.RewrapReplacesLiveSelector` states
  what that does to `live`.
- Object identity is not modelled beyond `Selection.Origin`. That includes
  the methods being attached to the collection object itself, and `live`
  and `bind` returning that same object.

=== FILE: events.dfy ===
/** The operations attached to a collection (`each`, `bind`, `live`), the
    `addEvent` shim they use, and what the host does with a registered
    listener when an event is delivered to it. Effects are recorded as data:
    an invocation of a caller's function, or a listener registration. */
module Events {
  import opened Host
  import opened Selection

  /** Where a listener can be attached. `live` and the ready wiring attach
      to `Document`; a handle built from the document node itself, as in
      `$( document ).bind(...)`, attaches to an `Element` whose identity is
      that node, so the document has two representations here. */
  datatype Target = Document | Window | Element(id: ElementId)

  /** A dispatched event; `target` is `event.target || event.srcElement`. */
  datatype Event = Event(id: EventId, target: ElementId)

  /** The single argument a caller's function receives. */
  datatype Arg = Index(i: nat) | Ev(event: Event)

  /** One call `fn.call(receiver, arg)`. */
  datatype Invocation = Invocation(fn: CallbackId, receiver: Target, arg: Arg)

  /** The function handed to `addEvent`: a caller's handler, the delegating
      handler `live` builds, or the library's own `doReady`. */
  datatype Handler =
    | Plain(fn: CallbackId)
    | Delegate(fn: CallbackId, selector: Selector)
    | DrainQueue

  /** What `addEvent` actually registers: the handler itself through
      `addEventListener`, or, through legacy `attachEvent`, a wrapper that
      calls the handler with the event target as receiver. */
  datatype Listener = Native(handler: Handler) | Legacy(handler: Handler)

  datatype Registration = Registration(on: Target, name: string, listener: Listener)

  datatype Effect = Called(call: Invocation) | Listened(reg: Registration)

  /** What one visitor call did, and whether it threw. */
  datatype Visit = Visit(effects: seq<Effect>, threw: bool)

  /** How `each` ended: it returned the collection, or the visitor threw at
      index `at` and the exception left the loop. */
  datatype Completion = Returned(elements: seq<ElementId>) | Threw(at: nat)

  /** The effects and the return value of `live`. */
  datatype Chained = Chained(effects: seq<Effect>, elements: seq<ElementId>)

  /** What delivering an event to a listener does: calls of the caller's
      functions, an exception, or a run of the ready queue's drain. */
  datatype Delivery = Delivered(calls: seq<Invocation>) | Failed(error: Error) | ReadySignal

  /** `addEvent( element, event, fn )`. */
  function AddEvent(p: Platform, on: Target, name: string, h: Handler): (r: Registration)
    ensures r.on == on && r.listener.handler == h
    ensures r.listener.Native? <==> p.w3c
    ensures r.name == (if p.w3c then name else "on" + name)
  {
    if p.w3c then Registration(on, name, Native(h))
    else Registration(on, "on" + name, Legacy(h))
  }

  /** The handler `live` registers, run for event `e`: look up the target's
      parent, query it with the handle's selector, and scan the matches for
      the target itself. A selector that is not a string reaches the query
      as the text the host makes of it. The membership test `in` stands for
      the scan loop, whose result `ScanMatches` shows to be exactly that
      membership. */
  function LiveHandler(p: Platform, sel: Selector, fn: CallbackId, e: Event): (d: Delivery)
    ensures !d.ReadySignal?
    ensures d.Delivered? ==> |d.calls| <= 1
    ensures d.Delivered? && |d.calls| == 1 ==> d.calls[0] == Invocation(fn, Element(e.target), Ev(e))
    ensures d.Failed? && p.parentOf(e.target).None? ==> d.error == TypeError
    ensures p.parentOf(e.target).Some? && !p.hasQuery ==> d == Failed(TypeError)
    ensures (&& p.parentOf(e.target).Some? && p.hasQuery
             && p.queryWithin(p.parentOf(e.target).value, SelectorText(p, sel)).None?)
            ==> d == Failed(SyntaxError)
    ensures d.Delivered? <==>
              p.hasQuery && p.parentOf(e.target).Some?
              && p.queryWithin(p.parentOf(e.target).value, SelectorText(p, sel)).Some?
    ensures d.Delivered? ==>
              (|d.calls| == 1 <==> e.target in p.queryWithin(p.parentOf(e.target).value, SelectorText(p, sel)).value)
  {
    match p.parentOf(e.target)
    case None => Failed(TypeError)
    case Some(parent) =>
      if !p.hasQuery then Failed(TypeError)
      else (
        match p.queryWithin(parent, SelectorText(p, sel))
        case None => Failed(SyntaxError)
        case Some(matches) =>
          Delivered(if e.target in matches then [Invocation(fn, Element(e.target), Ev(e))] else []))
  }

  /** The host delivering event `e` to a registered listener. A native
      listener runs with the element it is attached to as receiver; the
      legacy wrapper passes the event target instead. */
  function Deliver(p: Platform, reg: Registration, e: Event): (d: Delivery)
    ensures reg.listener.handler.Plain? ==>
              d == Delivered([Invocation(reg.listener.handler.fn,
                                         if reg.listener.Native? then reg.on else Element(e.target),
                                         Ev(e))])
    ensures reg.listener.handler.Delegate? ==>
              d == LiveHandler(p, reg.listener.handler.selector, reg.listener.handler.fn, e)
    ensures d.ReadySignal? <==> reg.listener.handler.DrainQueue?
  {
    match reg.listener.handler
    case Plain(fn) =>
      var receiver := if reg.listener.Native? then reg.on else Element(e.target);
      Delivered([Invocation(fn, receiver, Ev(e))])
    case Delegate(fn, sel) => LiveHandler(p, sel, fn, e)
    case DrainQueue => ReadySignal
  }

  /** The effects of visitor calls at indices `0 .. k-1`, in index order. */
  function Visits(elements: seq<ElementId>, visitor: (ElementId, nat) -> Visit, k: nat): seq<Effect>
    requires k <= |elements|
  {
    if k == 0 then [] else Visits(elements, visitor, k - 1) + visitor(elements[k - 1], k - 1).effects
  }

  /** When every visit has exactly one effect, the effects line up with the
      indices. */
  lemma {:induction false} VisitsOfSingletons(elements: seq<ElementId>, visitor: (ElementId, nat) -> Visit, k: nat)
    requires k <= |elements|
    requires forall i :: 0 <= i < k ==> |visitor(elements[i], i).effects| == 1
    ensures |Visits(elements, visitor, k)| == k
    ensures forall i :: 0 <= i < k ==> Visits(elements, visitor, k)[i] == visitor(elements[i], i).effects[0]
  {
    if k > 0 {
      VisitsOfSingletons(elements, visitor, k - 1);
    }
  }

  /** `each( fn )` with `fn` abstracted as `visitor`: call it on every
      element with the index, in index order, and return the collection. An
      exception from the visitor leaves the loop, so the elements after it
      are not visited. */
  method Each(elements: seq<ElementId>, visitor: (ElementId, nat) -> Visit)
    returns (effects: seq<Effect>, done: Completion)
    ensures done.Returned? <==> forall i :: 0 <= i < |elements| ==> !visitor(elements[i], i).threw
    ensures done.Returned? ==> done.elements == elements && effects == Visits(elements, visitor, |elements|)
    ensures done.Threw? ==>
              && done.at < |elements|
              && visitor(elements[done.at], done.at).threw
              && (forall j :: 0 <= j < done.at ==> !visitor(elements[j], j).threw)
              && effects == Visits(elements, visitor, done.at + 1)
  {
    effects := [];
    var i := 0;
    while i < |elements|
      invariant i <= |elements|
      invariant effects == Visits(elements, visitor, i)
      invariant forall j :: 0 <= j < i ==> !visitor(elements[j], j).threw
    {
      var v := visitor(elements[i], i);
      effects := effects + v.effects;
      if v.threw {
        return effects, Threw(i);
      }
      i := i + 1;
    }
    done := Returned(elements);
  }

  /** `each( fn )` for a caller's function `fn`, where `fails(x, i)` says
      whether the call on element `x` at index `i` throws. Each call in the
      trace has the element as receiver and its index as argument. */
  method EachCallback(elements: seq<ElementId>, fn: CallbackId, fails: (ElementId, nat) -> bool)
    returns (effects: seq<Effect>, done: Completion)
    ensures done.Returned? <==> forall i :: 0 <= i < |elements| ==> !fails(elements[i], i)
    ensures done.Returned? ==> done.elements == elements
    ensures done.Threw? ==>
              done.at < |elements| && fails(elements[done.at], done.at)
              && forall j :: 0 <= j < done.at ==> !fails(elements[j], j)
    ensures |effects| == (if done.Returned? then |elements| else done.at + 1)
    ensures forall i :: 0 <= i < |effects| ==>
              i < |elements| && effects[i] == Called(Invocation(fn, Element(elements[i]), Index(i)))
  {
    var visitor := (x: ElementId, i: nat) => Visit([Called(Invocation(fn, Element(x), Index(i)))], fails(x, i));
    effects, done := Each(elements, visitor);
    var n := if done.Returned? then |elements| else done.at + 1;
    VisitsOfSingletons(elements, visitor, n);
  }

  /** `bind( event, fn )`: one `addEvent` per element, in order, through
      `each`; the collection is returned. */
  method Bind(p: Platform, elements: seq<ElementId>, name: string, fn: CallbackId)
    returns (effects: seq<Effect>, done: Completion)
    ensures done == Returned(elements)
    ensures |effects| == |elements|
    ensures forall i :: 0 <= i < |elements| ==>
              effects[i] == Listened(AddEvent(p, Element(elements[i]), name, Plain(fn)))
  {
    var visitor := (x: ElementId, i: nat) => Visit([Listened(AddEvent(p, Element(x), name, Plain(fn)))], false);
    effects, done := Each(elements, visitor);
    VisitsOfSingletons(elements, visitor, |elements|);
  }

  /** A listener `bind` registered on element `x` calls `fn` exactly once
      per delivered event, with the event as argument. The receiver is `x`
      through `addEventListener` and the event target through the legacy
      wrapper; for an event aimed at `x` itself both agree. */
  lemma BoundListenerReceiver(p: Platform, x: ElementId, name: string, fn: CallbackId, e: Event)
    ensures var d := Deliver(p, AddEvent(p, Element(x), name, Plain(fn)), e);
            d.Delivered? && |d.calls| == 1 && d.calls[0].fn == fn && d.calls[0].arg == Ev(e)
            && d.calls[0].receiver == (if p.w3c then Element(x) else Element(e.target))
    ensures e.target == x ==>
              Deliver(p, AddEvent(p, Element(x), name, Plain(fn)), e)
              == Delivered([Invocation(fn, Element(x), Ev(e))])
  {
  }

  /** `live( event, fn )`: a single delegating listener on the document,
      nothing on the elements themselves; the collection is returned. */
  function Live(p: Platform, h: Handle, name: string, fn: CallbackId): (r: Chained)
    ensures r.elements == h.elements
    ensures |r.effects| == 1 && r.effects[0].Listened?
    ensures r.effects[0].reg.on == Document
    ensures r.effects[0].reg.listener.handler == Delegate(fn, h.selector)
    ensures r.effects[0].reg == AddEvent(p, Document, name, r.effects[0].reg.listener.handler)
  {
    Chained([Listened(AddEvent(p, Document, name, Delegate(fn, h.selector)))], h.elements)
  }

  /** An event delivered to the listener `live` registered calls `fn` at
      most once, with the target as receiver, and exactly when the target is
      itself among the parent's matches for the handle's selector. */
  lemma LiveDeliversAtMostOnce(p: Platform, h: Handle, name: string, fn: CallbackId, e: Event, parent: ElementId, matches: seq<ElementId>)
    requires p.hasQuery
    requires p.parentOf(e.target) == Some(parent)
    requires p.queryWithin(parent, SelectorText(p, h.selector)) == Some(matches)
    ensures Deliver(p, Live(p, h, name, fn).effects[0].reg, e)
            == Delivered(if e.target in matches then [Invocation(fn, Element(e.target), Ev(e))] else [])
  {
  }

  /** Wrapping a non-empty collection again passes the same list object
      through, and `$` then replaces its `live` with one that closes over the
      new selector: the list itself. From then on the delegating handler
      queries with the text the host makes of the list instead of the
      original selector, and where the host rejects that text every
      delivery fails. */
  lemma RewrapReplacesLiveSelector(p: Platform, h: Handle, name: string, fn: CallbackId, e: Event)
    requires |h.elements| > 0
    requires forall q :: p.queryWithin(q, p.textOf(List(h.elements))).None?
    ensures var again := Resolve(p, List(h.elements));
            && again.Resolved?
            && again.handle.origin == PassedThrough
            && again.handle.elements == h.elements
            && Live(p, again.handle, name, fn).effects[0].reg.listener.handler == Delegate(fn, List(h.elements))
            && Deliver(p, Live(p, again.handle, name, fn).effects[0].reg, e).Failed?
  {
  }

  /** The scan in the delegating handler: walk the matches in order and stop
      at the first one identical to the target. It finds one exactly when
      the target is among the matches. */
  method ScanMatches(matches: seq<ElementId>, target: ElementId) returns (found: bool, at: nat)
    ensures found <==> target in matches
    ensures found ==> at < |matches| && matches[at] == target
    ensures found ==> forall j :: 0 <= j < at ==> matches[j] != target
  {
    var i := 0;
    while i < |matches|
      invariant i <= |matches|
      invariant forall j :: 0 <= j < i ==> matches[j] != target
    {
      if matches[i] == target {
        return true, i;
      }
      i := i + 1;
    }
    return false, 0;
  }

  /** The listeners the library registers for the ready signals when it
      loads: `DOMContentLoaded` on the document where `addEventListener`
      exists, and `load` on the window everywhere. */
  function ReadyWiring(p: Platform): (regs: seq<Registration>)
    ensures forall i :: 0 <= i < |regs| ==> regs[i].listener.handler == DrainQueue
    ensures |regs| == (if p.w3c then 2 else 1)
    ensures regs[|regs| - 1].on == Window
    ensures regs[|regs| - 1].name == (if p.w3c then "load" else "onload")
    ensures p.w3c ==> regs[0] == Registration(Document, "DOMContentLoaded", Native(DrainQueue))
  {
    (if p.w3c then [AddEvent(p, Document, "DOMContentLoaded", DrainQueue)] else [])
    + [AddEvent(p, Window, "load", DrainQueue)]
  }

  /** Every listener of the ready wiring, whatever the event, runs the drain
      and nothing else. */
  lemma WiringOnlySignalsReady(p: Platform, e: Event)
    ensures forall i :: 0 <= i < |ReadyWiring(p)| ==> Deliver(p, ReadyWiring(p)[i], e) == ReadySignal
  {
  }
}

=== FILE: host.dfy ===
/** The browser as Thin JS sees it: opaque identities for elements,
    callbacks and events, whether `addEventListener` exists (probed once
    when the library loads) and whether `querySelectorAll` exists (tested
    on every `$` call and every delegated event), and the queries it
    delegates to the document. Nothing here is
    computed by the library itself; every function value is an input. */
module Host {

  /** Opaque identity of a DOM element (or any other node). */
  type ElementId = nat

  /** Opaque identity of a JavaScript function passed in by a caller. */
  type CallbackId = nat

  /** Opaque identity of one dispatched DOM event. */
  type EventId = nat

  datatype Option<+T> = None | Some(value: T)

  /** The exceptions the library lets escape to its caller or to the host. */
  datatype Error =
    | TypeError    // a property read or a call on null, undefined or a missing method
    | SyntaxError  // the host rejected the text given to querySelectorAll

  /** The argument of `$`, by the tests the library makes on it, in order:
      a string; a value with a truthy `nodeType`; a value with a truthy
      `length`. `Absent` is `null` or `undefined`, on which reading
      `nodeType` throws; `OtherObject` is any other value, which has
      neither property, by an opaque identity (so `false` and `{}` can
      have different texts). */
  datatype Selector =
    | Text(text: string)
    | Node(node: ElementId)
    | List(items: seq<ElementId>)
    | Absent
    | OtherObject(value: nat)

  /** What the host document offers.
      `w3c` is whether `document.addEventListener` exists, `hasQuery` whether
      `querySelectorAll` exists. `query` is `document.querySelectorAll` and
      `queryWithin(p, s)` is `p.querySelectorAll(s)`; both yield `None` when
      the host throws for the selector text. `parentOf` is `parentNode`.
      `textOf(v)` is `String(v)`, the text a non-string value becomes when
      it is handed to `querySelectorAll`. */
  datatype Platform = Platform(
    w3c: bool,
    hasQuery: bool,
    query: string -> Option<seq<ElementId>>,
    queryWithin: (ElementId, string) -> Option<seq<ElementId>>,
    parentOf: ElementId -> Option<ElementId>,
    textOf: Selector -> string)

  /** The text `querySelectorAll` receives for selector `sel`. */
  function SelectorText(p: Platform, sel: Selector): string
  {
    if sel.Text? then sel.text else p.textOf(sel)
  }
}

=== FILE: ready.dfy ===
/** The document-ready queue: `$.ready( fn )`, the drain `doReady`, and the
    host signals that trigger the drain. The state is the queue, the trace
    of ready callbacks run so far, and the document's `readyState`, which the
    host sets and the library only reads. */
module DomReady {
  import opened Host

  /** A ready callback: its identity, the callbacks it passes to `$.ready`
      when it runs (in call order), and whether it then throws. */
  datatype Callback = Callback(id: CallbackId, registers: seq<Callback>, throws: bool)

  /** The only value of `document.readyState` the library tests for. */
  const Complete: string := "complete"

  datatype Doc = Doc(readyState: string, queue: seq<Callback>, trace: seq<Callback>)

  /** The state after a call, and whether an exception escaped it. */
  datatype Outcome = Outcome(doc: Doc, threw: bool)

  /** The three host events that run the drain. */
  datatype Signal = ContentLoaded | ScrollProbe | WindowLoad

  /** What the host can do between two library calls: change `readyState`,
      run page code that calls `$.ready`, or deliver a ready signal. */
  datatype HostStep = SetReadyState(readyState: string) | PageCallsReady(c: Callback) | Fires(signal: Signal)

  /** Number of callbacks in the registration tree of `c`, itself included. */
  function Size(c: Callback): nat
    decreases c, 1
  {
    1 + SizeAll(c.registers)
  }

  function SizeAll(cs: seq<Callback>): nat
    decreases cs, 0
  {
    if cs == [] then 0 else Size(cs[0]) + SizeAll(cs[1..])
  }

  lemma {:induction false} SizeAllAppend(a: seq<Callback>, b: seq<Callback>)
    ensures SizeAll(a + b) == SizeAll(a) + SizeAll(b)
  {
    if a != [] {
      assert (a + b)[0] == a[0];
      assert (a + b)[1..] == a[1..] + b;
      SizeAllAppend(a[1..], b);
    } else {
      assert a + b == b;
    }
  }

  /** Shifting the head of a non-empty queue, and appending what the head
      registers, leaves a strictly smaller set of trees to run. */
  lemma ShiftShrinks(q: seq<Callback>)
    requires q != []
    ensures SizeAll(q[1..] + q[0].registers) < SizeAll(q)
    ensures SizeAll(q[1..]) < SizeAll(q)
  {
    SizeAllAppend(q[1..], q[0].registers);
  }

  /** Neither `c` nor anything it registers, transitively, throws. */
  predicate Quiet(c: Callback)
    decreases Size(c), 1
  {
    !c.throws && AllQuiet(c.registers)
  }

  predicate AllQuiet(cs: seq<Callback>)
    decreases SizeAll(cs), 2
  {
    cs == [] || (Quiet(cs[0]) && AllQuiet(cs[1..]))
  }

  /** The callbacks of the registration tree of `c`, depth first, parent
      before children: the order in which they run when every `$.ready`
      call runs its argument at once. */
  function Preorder(c: Callback): seq<Callback>
    decreases Size(c), 1
  {
    [c] + PreorderAll(c.registers)
  }

  function PreorderAll(cs: seq<Callback>): seq<Callback>
    decreases SizeAll(cs), 2
  {
    if cs == [] then [] else Preorder(cs[0]) + PreorderAll(cs[1..])
  }

  /** Everything the callbacks `cs` pass to `$.ready`, in the order they run
      and then in call order. */
  function Registrations(cs: seq<Callback>): seq<Callback>
  {
    if cs == [] then [] else cs[0].registers + Registrations(cs[1..])
  }

  lemma {:induction false} RegistrationsAppend(a: seq<Callback>, b: seq<Callback>)
    ensures Registrations(a + b) == Registrations(a) + Registrations(b)
  {
    if a != [] {
      assert (a + b)[0] == a[0];
      assert (a + b)[1..] == a[1..] + b;
      RegistrationsAppend(a[1..], b);
    } else {
      assert a + b == b;
    }
  }

  /** `fn()` for a ready callback: record the call, make its `$.ready` calls
      in order, then throw if it throws. An exception from a nested call
      ends the callback there and propagates. */
  function Invoke(d: Doc, c: Callback): (o: Outcome)
    decreases Size(c), 0
    ensures o.doc.readyState == d.readyState
    ensures d.trace + [c] <= o.doc.trace
    ensures d.readyState != Complete ==>
              o == Outcome(d.(queue := d.queue + c.registers, trace := d.trace + [c]), c.throws)
    ensures d.readyState == Complete ==>
              && o.doc.queue == d.queue
              && o.doc.trace <= d.trace + Preorder(c)
              && (o.threw <==> !Quiet(c))
              && (!o.threw ==> o.doc.trace == d.trace + Preorder(c))
  {
    var r := ReadyAll(d.(trace := d.trace + [c]), c.registers);
    if r.threw then r else Outcome(r.doc, c.throws)
  }

  /** `$.ready( fn )`: run `fn` at once if the document is complete,
      otherwise append it to the queue and run nothing. */
  function Ready(d: Doc, c: Callback): (o: Outcome)
    decreases Size(c), 1
    ensures o.doc.readyState == d.readyState
    ensures d.readyState != Complete ==> o == Outcome(d.(queue := d.queue + [c]), false)
    ensures d.readyState == Complete ==>
              && o.doc.queue == d.queue
              && d.trace + [c] <= o.doc.trace
              && o.doc.trace <= d.trace + Preorder(c)
              && (o.threw <==> !Quiet(c))
              && (!o.threw ==> o.doc.trace == d.trace + Preorder(c))
  {
    if d.readyState == Complete then Invoke(d, c)
    else Outcome(d.(queue := d.queue + [c]), false)
  }

  /** The `$.ready` calls a callback body makes, one after the other,
      stopping at the first that throws. */
  function ReadyAll(d: Doc, cs: seq<Callback>): (o: Outcome)
    decreases SizeAll(cs), 2
    ensures o.doc.readyState == d.readyState
    ensures d.trace <= o.doc.trace
    ensures d.readyState != Complete ==> o == Outcome(d.(queue := d.queue + cs), false)
    ensures d.readyState == Complete ==>
              && o.doc.queue == d.queue
              && o.doc.trace <= d.trace + PreorderAll(cs)
              && (o.threw <==> !AllQuiet(cs))
              && (!o.threw ==> o.doc.trace == d.trace + PreorderAll(cs))
  {
    if cs == [] then Outcome(d, false)
    else
      var r := Ready(d, cs[0]);
      assert PreorderAll(cs) == Preorder(cs[0]) + PreorderAll(cs[1..]);
      assert d.trace + PreorderAll(cs) == d.trace + Preorder(cs[0]) + PreorderAll(cs[1..]);
      if r.threw then
        PrefixOfLonger(r.doc.trace, d.trace + Preorder(cs[0]), PreorderAll(cs[1..]));
        r
      else
        assert d.queue + [cs[0]] + cs[1..] == d.queue + cs;
        ReadyAll(r.doc, cs[1..])
  }

  /** `doReady`: while the queue is not empty, shift its head and call it.
      An exception from a callback leaves the loop with the rest still
      queued. */
  function DoReady(d: Doc): (o: Outcome)
    decreases SizeAll(d.queue)
    ensures o.doc.readyState == d.readyState
    ensures d.trace <= o.doc.trace
    ensures !o.threw ==> o.doc.queue == []
    ensures d.queue == [] ==> o == Outcome(d, false)
  {
    if d.queue == [] then Outcome(d, false)
    else
      var c := d.queue[0];
      var r := Invoke(d.(queue := d.queue[1..]), c);
      if r.threw then r
      else
        ShiftShrinks(d.queue);
        DoReady(r.doc)
  }

  /** The callbacks a step from `d` to `e` ran. */
  function Ran(d: Doc, e: Doc): seq<Callback>
    requires d.trace <= e.trace
  {
    e.trace[|d.trace|..]
  }

  /** `ran + left == queued + Registrations(ran)`: the callbacks run so far,
      followed by those still queued, are the callbacks first queued
      followed by everything the ones that ran registered, in order. */
  predicate BreadthFirst(queued: seq<Callback>, ran: seq<Callback>, left: seq<Callback>)
  {
    ran + left == queued + Registrations(ran)
  }

  /** An exception was raised exactly when the last callback run throws,
      and no earlier one does. */
  predicate OnlyLastThrows(ran: seq<Callback>, threw: bool)
  {
    && (threw <==> ran != [] && ran[|ran| - 1].throws)
    && forall i :: 0 <= i < |ran| - 1 ==> !ran[i].throws
  }

  /** Re-association of concatenation used when one more callback is put in
      front of a breadth-first stretch: from `rest + left == later + a + b`
      it follows that `x + rest + left == (x + later) + (a + b)`. */
  lemma ConcatPrepend<T>(x: seq<T>, rest: seq<T>, left: seq<T>, later: seq<T>, a: seq<T>, b: seq<T>)
    requires rest + left == later + a + b
    ensures x + rest + left == (x + later) + (a + b)
  {
    calc {
      x + rest + left;
      x + (rest + left);
      x + (later + a + b);
      (x + later) + (a + b);
    }
  }

  /** Re-association of concatenation used to chain two breadth-first
      stretches: `first + q1 == q0 + r1` and `later + q2 == q1 + r2` give
      `first + later + q2 == q0 + (r1 + r2)`. */
  lemma ConcatChain<T>(q0: seq<T>, first: seq<T>, q1: seq<T>, later: seq<T>, q2: seq<T>, r1: seq<T>, r2: seq<T>)
    requires first + q1 == q0 + r1 && later + q2 == q1 + r2
    ensures first + later + q2 == q0 + (r1 + r2)
  {
    calc {
      first + later + q2;
      first + (later + q2);
      first + (q1 + r2);
      (first + q1) + r2;
      (q0 + r1) + r2;
    }
  }

  /** Running the head of the queue first keeps the breadth-first shape. */
  lemma BreadthFirstCons(c: Callback, later: seq<Callback>, rest: seq<Callback>, left: seq<Callback>)
    requires BreadthFirst(later + c.registers, rest, left)
    ensures BreadthFirst([c] + later, [c] + rest, left)
  {
    RegistrationsAppend([c], rest);
    assert Registrations([c]) == c.registers;
    ConcatPrepend([c], rest, left, later, c.registers, Registrations(rest));
  }

  /** One turn of the drain loop while the document is not complete. */
  lemma DrainTurn(d: Doc)
    requires d.readyState != Complete && d.queue != []
    ensures var c := d.queue[0];
            var next := d.(queue := d.queue[1..] + c.registers, trace := d.trace + [c]);
            DoReady(d) == if c.throws then Outcome(next, true) else DoReady(next)
  {
  }

  /** While the document is not complete the drain is breadth first: the
      callbacks it runs, followed by what is left queued, are exactly the
      callbacks that were queued followed by everything those that ran
      registered. So each queued callback runs at most once, in queue
      order, those not run stay queued in order, and, when the drain does
      not throw, a callback queued during the drain runs in the same drain
      after those queued before it. */
  lemma {:induction false} DrainIsFifo(d: Doc)
    requires d.readyState != Complete
    ensures BreadthFirst(d.queue, Ran(d, DoReady(d).doc), DoReady(d).doc.queue)
    decreases SizeAll(d.queue)
  {
    if d.queue != [] {
      var c := d.queue[0];
      var next := d.(queue := d.queue[1..] + c.registers, trace := d.trace + [c]);
      DrainTurn(d);
      assert d.queue == [c] + d.queue[1..];
      assert Ran(d, next) == [c];
      if c.throws {
        assert DoReady(d).doc == next;
        assert Registrations([c]) == c.registers;
        assert BreadthFirst(d.queue, [c], next.queue);
      } else {
        assert DoReady(d) == DoReady(next);
        ShiftShrinks(d.queue);
        DrainIsFifo(next);
        var e := DoReady(next).doc;
        var rest := Ran(next, e);
        assert Ran(d, e) == [c] + rest;
        BreadthFirstCons(c, d.queue[1..], rest, e.queue);
      }
    }
  }

  /** A callback that did not throw, run before a stretch in which only the
      last can have thrown, keeps that shape. */
  lemma OnlyLastThrowsCons(c: Callback, rest: seq<Callback>, threw: bool)
    requires !c.throws && OnlyLastThrows(rest, threw)
    ensures OnlyLastThrows([c] + rest, threw)
  {
    var ran := [c] + rest;
    forall i | 0 <= i < |ran| - 1
      ensures !ran[i].throws
    {
      if i > 0 {
        assert ran[i] == rest[i - 1];
      }
    }
    if rest != [] {
      assert ran[|ran| - 1] == rest[|rest| - 1];
    }
  }

  /** While the document is not complete, the drain throws exactly when the
      last callback it ran throws, and no earlier one does. */
  lemma {:induction false} DrainStopsAtThrow(d: Doc)
    requires d.readyState != Complete
    ensures OnlyLastThrows(Ran(d, DoReady(d).doc), DoReady(d).threw)
    decreases SizeAll(d.queue)
  {
    if d.queue != [] {
      var c := d.queue[0];
      var next := d.(queue := d.queue[1..] + c.registers, trace := d.trace + [c]);
      DrainTurn(d);
      assert Ran(d, next) == [c];
      if c.throws {
        assert DoReady(d) == Outcome(next, true);
      } else {
        assert DoReady(d) == DoReady(next);
        ShiftShrinks(d.queue);
        DrainStopsAtThrow(next);
        var e := DoReady(next).doc;
        assert Ran(d, e) == [c] + Ran(next, e);
        OnlyLastThrowsCons(c, Ran(next, e), DoReady(next).threw);
      }
    }
  }

  /** One turn of the drain loop once the document is complete: the head
      runs with its whole registration tree, unless something in it throws. */
  lemma DrainTurnComplete(d: Doc)
    requires d.readyState == Complete && d.queue != []
    ensures var c := d.queue[0];
            var next := d.(queue := d.queue[1..], trace := d.trace + Preorder(c));
            && (Quiet(c) ==> DoReady(d) == DoReady(next))
            && (!Quiet(c) ==> && DoReady(d).threw
                              && DoReady(d).doc.queue == d.queue[1..]
                              && d.trace + [c] <= DoReady(d).doc.trace
                              && DoReady(d).doc.trace <= d.trace + Preorder(c))
  {
  }

  /** Index of the first queued callback whose tree throws somewhere, or the
      length of the queue when none does. */
  function FirstLoud(q: seq<Callback>): (k: nat)
    ensures k <= |q|
    ensures forall i :: 0 <= i < k ==> Quiet(q[i])
    ensures k < |q| ==> !Quiet(q[k])
    ensures k == |q| <==> AllQuiet(q)
  {
    if q == [] || !Quiet(q[0]) then 0 else 1 + FirstLoud(q[1..])
  }

  lemma PrefixOfLonger(a: seq<Callback>, b: seq<Callback>, x: seq<Callback>)
    requires a <= b
    ensures a <= b + x
  {
    assert (b + x)[..|b|] == b;
  }

  /** When the document is complete, queued callbacks drain in queue order
      and each one's own `$.ready` calls run at once inside it: the trace
      grows by the depth-first order of the queued trees. The drain throws
      exactly when something in those trees throws, and then leaves queued
      exactly the callbacks after the first tree that throws. */
  lemma {:induction false} DrainWhenComplete(d: Doc)
    requires d.readyState == Complete
    ensures DoReady(d).threw <==> !AllQuiet(d.queue)
    ensures DoReady(d).doc.trace <= d.trace + PreorderAll(d.queue)
    ensures !DoReady(d).threw ==> Ran(d, DoReady(d).doc) == PreorderAll(d.queue)
    ensures DoReady(d).threw ==> DoReady(d).doc.queue == d.queue[FirstLoud(d.queue) + 1..]
    decreases SizeAll(d.queue)
  {
    if !AllQuiet(d.queue) {
      CompleteDrainStrands(d);
    }
    if d.queue != [] {
      var c := d.queue[0];
      var next := d.(queue := d.queue[1..], trace := d.trace + Preorder(c));
      DrainTurnComplete(d);
      assert PreorderAll(d.queue) == Preorder(c) + PreorderAll(d.queue[1..]);
      assert d.trace + PreorderAll(d.queue) == next.trace + PreorderAll(d.queue[1..]);
      if Quiet(c) {
        ShiftShrinks(d.queue);
        DrainWhenComplete(next);
        var e := DoReady(next).doc;
        if !DoReady(next).threw {
          assert e.trace == next.trace + PreorderAll(d.queue[1..]);
        }
      } else {
        PrefixOfLonger(DoReady(d).doc.trace, d.trace + Preorder(c), PreorderAll(d.queue[1..]));
      }
    }
  }

  lemma ShiftIndices<T>(q: seq<T>, k: nat)
    requires k + 1 < |q|
    ensures q[1..][k + 1..] == q[k + 2..]
    ensures q[..k + 1] == [q[0]] + q[1..][..k]
    ensures q[..k + 2] == [q[0]] + q[1..][..k + 1]
    ensures q[1..][k] == q[k + 1]
  {
  }

  lemma PreorderAllCons(c: Callback, cs: seq<Callback>)
    ensures PreorderAll([c] + cs) == Preorder(c) + PreorderAll(cs)
  {
    assert ([c] + cs)[1..] == cs;
  }

  /** Appending a concatenation is appending its parts in turn. */
  lemma AppendUnnest<T>(a: seq<T>, b: seq<T>, x: seq<T>)
    ensures a + (b + x) == a + b + x
  {
  }

  lemma AppendUnnestThen<T>(a: seq<T>, b: seq<T>, x: seq<T>, y: seq<T>)
    ensures a + (b + x) + y == a + b + x + y
  {
  }

  /** When the document is complete and a queued tree throws, the drain
      runs the quiet trees before it in full and enters the first loud one;
      the exception leaves the loop with exactly the callbacks after it still
      queued, none of which has run: the trace grows by at most the trees up
      to and including the loud one. */
  lemma {:induction false} CompleteDrainStrands(d: Doc)
    requires d.readyState == Complete && !AllQuiet(d.queue)
    ensures var k := FirstLoud(d.queue);
            && k < |d.queue|
            && DoReady(d).threw
            && DoReady(d).doc.queue == d.queue[k + 1..]
            && d.trace + PreorderAll(d.queue[..k]) + [d.queue[k]] <= DoReady(d).doc.trace
            && DoReady(d).doc.trace <= d.trace + PreorderAll(d.queue[..k + 1])
    decreases SizeAll(d.queue)
  {
    var c := d.queue[0];
    var next := d.(queue := d.queue[1..], trace := d.trace + Preorder(c));
    DrainTurnComplete(d);
    if Quiet(c) {
      ShiftShrinks(d.queue);
      CompleteDrainStrands(next);
      var k := FirstLoud(next.queue);
      assert FirstLoud(d.queue) == k + 1;
      ShiftIndices(d.queue, k);
      PreorderAllCons(c, next.queue[..k]);
      PreorderAllCons(c, next.queue[..k + 1]);
      AppendUnnest(d.trace, Preorder(c), PreorderAll(next.queue[..k + 1]));
      AppendUnnestThen(d.trace, Preorder(c), PreorderAll(next.queue[..k]), [next.queue[k]]);
    } else {
      assert FirstLoud(d.queue) == 0;
      assert d.queue[..0] == [];
      assert d.queue[..1] == [c] + [];
      PreorderAllCons(c, []);
    }
  }

  /** The drain is idempotent: once it has run to the end, running it again
      (a later signal) changes nothing. */
  lemma DrainIdempotent(d: Doc)
    requires !DoReady(d).threw
    ensures DoReady(DoReady(d).doc) == DoReady(d)
  {
  }

  /** One host step. An exception escaping page code or a signal handler is
      reported by the host and does not stop later steps. */
  function Step(d: Doc, s: HostStep): (r: Doc)
    ensures r.readyState == (if s.SetReadyState? then s.readyState else d.readyState)
    ensures d.trace <= r.trace
    ensures s.SetReadyState? ==> r.queue == d.queue && r.trace == d.trace
  {
    match s
    case SetReadyState(state) => d.(readyState := state)
    case PageCallsReady(c) => Ready(d, c).doc
    case Fires(_) => DoReady(d).doc
  }

  /** A sequence of host steps, in order. The library only ever adds to
      the trace. */
  function Run(d: Doc, steps: seq<HostStep>): (r: Doc)
    decreases |steps|
    ensures d.trace <= r.trace
  {
    if steps == [] then d else Run(Step(d, steps[0]), steps[1..])
  }

  predicate OnlySignals(steps: seq<HostStep>)
  {
    forall i :: 0 <= i < |steps| ==> steps[i].Fires?
  }

  /** Signals never change `readyState`; only the host does. */
  lemma {:induction false} SignalsKeepReadyState(d: Doc, steps: seq<HostStep>)
    requires OnlySignals(steps)
    ensures Run(d, steps).readyState == d.readyState
    decreases |steps|
  {
    if steps != [] {
      SignalsKeepReadyState(Step(d, steps[0]), steps[1..]);
    }
  }

  /** Once the queue is empty, any further sequence of signals runs nothing
      and changes nothing. */
  lemma {:induction false} SignalsAfterDrainAreInert(d: Doc, steps: seq<HostStep>)
    requires d.queue == []
    requires OnlySignals(steps)
    ensures Run(d, steps) == d
    decreases |steps|
  {
    if steps != [] {
      assert Step(d, steps[0]) == d;
      SignalsAfterDrainAreInert(d, steps[1..]);
    }
  }

  lemma RanSplits(d: Doc, mid: Doc, e: Doc)
    requires d.trace <= mid.trace && mid.trace <= e.trace
    ensures d.trace <= e.trace
    ensures Ran(d, e) == Ran(d, mid) + Ran(mid, e)
  {
    assert e.trace[..|d.trace|] == mid.trace[..|d.trace|];
  }

  /** Two breadth-first stretches in a row make one. */
  lemma BreadthFirstCompose(q0: seq<Callback>, first: seq<Callback>, q1: seq<Callback>, later: seq<Callback>, q2: seq<Callback>)
    requires BreadthFirst(q0, first, q1) && BreadthFirst(q1, later, q2)
    ensures BreadthFirst(q0, first + later, q2)
  {
    RegistrationsAppend(first, later);
    ConcatChain(q0, first, q1, later, q2, Registrations(first), Registrations(later));
  }

  /** Across any sequence of signals delivered before the document is
      complete (DOMContentLoaded, a successful scroll probe, or a load
      signal seen in that state), the ready callbacks run breadth first,
      even when some throw and a later signal resumes the drain: each
      queued callback at most once, in queue order, and exactly once when
      the final drain does not throw. */
  lemma {:induction false} SignalsRunEachQueuedOnce(d: Doc, steps: seq<HostStep>)
    requires d.readyState != Complete
    requires OnlySignals(steps)
    ensures d.trace <= Run(d, steps).trace
    ensures BreadthFirst(d.queue, Ran(d, Run(d, steps)), Run(d, steps).queue)
    decreases |steps|
  {
    if steps == [] {
      assert Ran(d, d) == [];
    } else {
      var d1 := DoReady(d).doc;
      var e := Run(d, steps);
      assert e == Run(d1, steps[1..]);
      DrainIsFifo(d);
      SignalsRunEachQueuedOnce(d1, steps[1..]);
      RanSplits(d, d1, e);
      BreadthFirstCompose(d.queue, Ran(d, d1), d1.queue, Ran(d1, e), e.queue);
    }
  }

  /** Every signal either finds the queue empty for good or runs at least
      one more callback: after `n` signals the queue is empty or at least
      `n` callbacks have run. */
  lemma {:induction false} SignalsMakeProgress(d: Doc, steps: seq<HostStep>)
    requires d.readyState != Complete
    requires OnlySignals(steps)
    ensures d.trace <= Run(d, steps).trace
    ensures Run(d, steps).queue == [] || |Ran(d, Run(d, steps))| >= |steps|
    decreases |steps|
  {
    SignalsKeepReadyState(d, steps);
    if steps != [] {
      var o := DoReady(d);
      var d1 := o.doc;
      var e := Run(d, steps);
      assert e == Run(d1, steps[1..]);
      SignalsKeepReadyState(d1, steps[1..]);
      SignalsMakeProgress(d1, steps[1..]);
      RanSplits(d, d1, e);
      if e.queue != [] {
        if !o.threw {
          SignalsAfterDrainAreInert(d1, steps[1..]);
          assert false;
        }
        DrainStopsAtThrow(d);
        assert |Ran(d, d1)| >= 1;
      }
    }
  }

  /** A queue of `n` trees in all can absorb at most `n` signals before it is
      empty: each callback that runs takes itself off the total, whatever it
      registers. */
  lemma {:induction false} SizeAllRegistrations(xs: seq<Callback>)
    ensures SizeAll(xs) == |xs| + SizeAll(Registrations(xs))
  {
    if xs != [] {
      SizeAllRegistrations(xs[1..]);
      SizeAllAppend(xs[0].registers, Registrations(xs[1..]));
    }
  }

  /** Before the document is complete, as many signals as there are
      callbacks in the queued trees always empty the queue, however many of
      the drains they run end in an exception. */
  lemma SignalsEmptyQueueWithinBound(d: Doc, steps: seq<HostStep>)
    requires d.readyState != Complete
    requires OnlySignals(steps)
    requires |steps| >= SizeAll(d.queue)
    ensures Run(d, steps).queue == []
  {
    var e := Run(d, steps);
    SignalsRunEachQueuedOnce(d, steps);
    SignalsMakeProgress(d, steps);
    var ran := Ran(d, e);
    SizeAllAppend(ran, e.queue);
    SizeAllAppend(d.queue, Registrations(ran));
    SizeAllRegistrations(ran);
  }

  /** In a complete document, a signal whose drain meets a throwing tree at
      the head of the queue runs only that tree, up to the exception; the
      callbacks behind it stay queued until another signal comes. */
  lemma SignalAfterThrowStrandsRest(d: Doc, a: Callback, rest: seq<Callback>)
    requires d.readyState == Complete && d.queue == [a] + rest
    requires !Quiet(a)
    ensures var e := Run(d, [Fires(WindowLoad)]);
            && e.queue == rest
            && d.trace + [a] <= e.trace
            && e.trace <= d.trace + Preorder(a)
  {
    assert Run(d, [Fires(WindowLoad)]) == DoReady(d).doc;
    DrainTurnComplete(d);
    assert d.queue[1..] == rest;
  }

  /** `x` is what is left of `q` after some callbacks were taken off its
      front. */
  predicate Suffix(x: seq<Callback>, q: seq<Callback>)
  {
    |x| <= |q| && x == q[|q| - |x|..]
  }

  lemma SuffixTransitive(x: seq<Callback>, y: seq<Callback>, q: seq<Callback>)
    requires Suffix(x, y) && Suffix(y, q)
    ensures Suffix(x, q)
  {
    assert q[|q| - |x|..] == q[|q| - |y|..][|y| - |x|..];
  }

  /** In a complete document a drain either empties the queue or leaves a
      strictly shorter suffix of it. */
  lemma DrainShortensWhenComplete(d: Doc)
    requires d.readyState == Complete
    ensures var left := DoReady(d).doc.queue;
            left == [] || (Suffix(left, d.queue) && |left| < |d.queue|)
  {
    DrainWhenComplete(d);
    var left := DoReady(d).doc.queue;
    if DoReady(d).threw {
      assert |left| == |d.queue| - (FirstLoud(d.queue) + 1);
    }
  }

  /** In a complete document every signal that finds callbacks queued takes
      at least one of them off the front for good: what stays queued is
      always a suffix of the original queue, at least one callback shorter
      per signal until it is empty. */
  lemma {:induction false} SignalsWhenComplete(d: Doc, steps: seq<HostStep>)
    requires d.readyState == Complete
    requires OnlySignals(steps)
    ensures Suffix(Run(d, steps).queue, d.queue)
    ensures Run(d, steps).queue == [] || |Run(d, steps).queue| + |steps| <= |d.queue|
    decreases |steps|
  {
    if steps == [] {
      assert d.queue[|d.queue| - |d.queue|..] == d.queue;
    } else {
      var d1 := DoReady(d).doc;
      var e := Run(d, steps);
      assert e == Run(d1, steps[1..]);
      DrainShortensWhenComplete(d);
      if d1.queue == [] {
        SignalsAfterDrainAreInert(d1, steps[1..]);
        assert e.queue == [] == d.queue[|d.queue|..];
      } else {
        SignalsWhenComplete(d1, steps[1..]);
        SuffixTransitive(e.queue, d1.queue, d.queue);
      }
    }
  }

  lemma {:induction false} PreorderAllAppend(a: seq<Callback>, b: seq<Callback>)
    ensures PreorderAll(a + b) == PreorderAll(a) + PreorderAll(b)
  {
    if a != [] {
      assert (a + b)[0] == a[0];
      assert (a + b)[1..] == a[1..] + b;
      PreorderAllAppend(a[1..], b);
    } else {
      assert a + b == b;
    }
  }

  /** Multiset bookkeeping for one step of `PreorderAllSplit`. */
  lemma CountSplitCons<T>(xs: seq<T>, h: seq<T>, t: seq<T>, p: seq<T>, own: seq<T>, pt: seq<T>, r: seq<T>, rt: seq<T>)
    requires xs == h + t && p == h + own + pt && r == own + rt
    requires multiset(pt) == multiset(t) + multiset(rt)
    ensures multiset(p) == multiset(xs) + multiset(r)
  {
  }

  /** The depth-first order of some trees counts their roots plus the
      depth-first order of everything the roots register. */
  lemma {:induction false} PreorderAllSplit(xs: seq<Callback>)
    ensures multiset(PreorderAll(xs)) == multiset(xs) + multiset(PreorderAll(Registrations(xs)))
  {
    if xs != [] {
      var c := xs[0];
      var t := xs[1..];
      PreorderAllSplit(t);
      assert Registrations(xs) == c.registers + Registrations(t);
      PreorderAllAppend(c.registers, Registrations(t));
      assert xs == [c] + t;
      assert PreorderAll(xs) == Preorder(c) + PreorderAll(t);
      assert Preorder(c) == [c] + PreorderAll(c.registers);
      CountSplitCons(xs, [c], t, PreorderAll(xs), PreorderAll(c.registers), PreorderAll(t),
                     PreorderAll(Registrations(xs)), PreorderAll(Registrations(t)));
    }
  }

  /** The breadth-first equation, counted as callbacks: what ran and the
      trees left queued are exactly the trees first queued. */
  lemma BreadthFirstWithinTrees(q: seq<Callback>, ran: seq<Callback>, left: seq<Callback>)
    requires BreadthFirst(q, ran, left)
    ensures multiset(ran) + multiset(PreorderAll(left)) == multiset(PreorderAll(q))
  {
    PreorderAllAppend(ran, left);
    PreorderAllAppend(q, Registrations(ran));
    PreorderAllSplit(ran);
    assert multiset(PreorderAll(ran)) + multiset(PreorderAll(left))
           == multiset(PreorderAll(q)) + multiset(PreorderAll(Registrations(ran)));
  }

  /** A run that extends the trace by a prefix of the front trees'
      depth-first order, leaving the back trees queued, stays within all
      the trees. */
  lemma PrefixWithinTrees(before: seq<Callback>, after: seq<Callback>, front: seq<Callback>, back: seq<Callback>)
    requires before <= after && after <= before + PreorderAll(front)
    ensures multiset(after[|before|..]) + multiset(PreorderAll(back)) <= multiset(PreorderAll(front + back))
  {
    var x := PreorderAll(front);
    assert after[|before|..] == x[..|after| - |before|];
    assert x == x[..|after| - |before|] + x[|after| - |before|..];
    PreorderAllAppend(front, back);
  }

  /** In a complete document a drain runs a prefix of the queued trees'
      depth-first order and leaves the trees after it queued. */
  lemma CompleteDrainWithinTrees(d: Doc)
    requires d.readyState == Complete
    ensures multiset(Ran(d, DoReady(d).doc)) + multiset(PreorderAll(DoReady(d).doc.queue))
            <= multiset(PreorderAll(d.queue))
  {
    var e := DoReady(d).doc;
    DrainWhenComplete(d);
    if DoReady(d).threw {
      CompleteDrainStrands(d);
      var front := d.queue[..FirstLoud(d.queue) + 1];
      assert d.queue == front + e.queue;
      PrefixWithinTrees(d.trace, e.trace, front, e.queue);
    }
  }

  /** Before the document is complete a drain runs each callback it takes
      off the queue once, and what it runs and leaves queued are exactly
      the queued trees. */
  lemma OpenDrainWithinTrees(d: Doc)
    requires d.readyState != Complete
    ensures multiset(Ran(d, DoReady(d).doc)) + multiset(PreorderAll(DoReady(d).doc.queue))
            == multiset(PreorderAll(d.queue))
  {
    DrainIsFifo(d);
    BreadthFirstWithinTrees(d.queue, Ran(d, DoReady(d).doc), DoReady(d).doc.queue);
  }

  /** What a drain ran and what it left queued, counted as callbacks, stay
      within the queued trees: no callback runs more often than it occurs in
      them, and nothing else runs. */
  lemma DrainWithinTrees(d: Doc)
    ensures multiset(Ran(d, DoReady(d).doc)) + multiset(PreorderAll(DoReady(d).doc.queue))
            <= multiset(PreorderAll(d.queue))
  {
    if d.readyState == Complete {
      CompleteDrainWithinTrees(d);
    } else {
      OpenDrainWithinTrees(d);
    }
  }

  /** Host steps with no page code in them: signals, and `readyState`
      changes in any order between them. */
  predicate NoPageCalls(steps: seq<HostStep>)
  {
    forall i :: 0 <= i < |steps| ==> !steps[i].PageCallsReady?
  }

  /** Across any signals, whatever `readyState` does between them (the
      usual order being DOMContentLoaded while interactive, then complete,
      then load), no callback of the queued trees runs more often than it
      occurs in them, and nothing else runs. So a drain that throws on
      DOMContentLoaded and is resumed by load in a complete document runs
      no queued callback twice. */
  lemma {:induction false} SignalsRunWithinTrees(d: Doc, steps: seq<HostStep>)
    requires NoPageCalls(steps)
    ensures multiset(Ran(d, Run(d, steps))) + multiset(PreorderAll(Run(d, steps).queue))
            <= multiset(PreorderAll(d.queue))
    decreases |steps|
  {
    var e := Run(d, steps);
    if steps == [] {
      assert Ran(d, e) == [];
    } else {
      var d1 := Step(d, steps[0]);
      assert e == Run(d1, steps[1..]);
      SignalsRunWithinTrees(d1, steps[1..]);
      RanSplits(d, d1, e);
      if steps[0].SetReadyState? {
        assert Ran(d, d1) == [];
      } else {
        assert steps[0].Fires?;
        DrainWithinTrees(d);
      }
    }
  }

  /** The two conditions stay apart: a callback registered after the queue
      was drained but before the document is complete is queued, not run.
      It runs on the later load signal, which empties the queue whether or
      not it throws; when nothing in its tree throws, its whole tree runs. */
  lemma LateRegistrationRunsOnLoad(d: Doc, c: Callback)
    requires d.readyState != Complete && d.queue == []
    ensures Run(d, [PageCallsReady(c)]) == d.(queue := [c])
    ensures var e := Run(d, [PageCallsReady(c), SetReadyState(Complete), Fires(WindowLoad)]);
            && e.readyState == Complete
            && e.queue == []
            && d.trace + [c] <= e.trace
            && e.trace <= d.trace + Preorder(c)
            && (Quiet(c) ==> e == d.(readyState := Complete, trace := d.trace + Preorder(c)))
  {
    var d1 := d.(queue := [c]);
    var d2 := d1.(readyState := Complete);
    var steps := [PageCallsReady(c), SetReadyState(Complete), Fires(WindowLoad)];
    assert Step(d, PageCallsReady(c)) == d1;
    assert Run(d, steps) == Run(d1, steps[1..]);
    assert Run(d1, steps[1..]) == Run(d2, steps[2..]);
    assert Run(d2, steps[2..]) == DoReady(d2).doc;
    DrainTurnComplete(d2);
    assert d2.queue[1..] == [];
    if Quiet(c) {
      var next := d2.(queue := [], trace := d.trace + Preorder(c));
      assert DoReady(d2) == DoReady(next) == Outcome(next, false);
    }
  }
}

=== FILE: selection.dfy ===
/** `$( selector )`: turning whatever the caller passes into an ordered
    collection of elements. */
module Selection {
  import opened Host

  /** Where the returned collection comes from. Only `PassedThrough` is the
      caller's own list object; the others are new objects. */
  datatype Origin = Queried | WrappedNode | PassedThrough | FreshEmpty

  /** The collection `$` returns. The handle keeps the selector it was built
      from, because `live` queries with it again on every event. */
  datatype Handle = Handle(elements: seq<ElementId>, origin: Origin, selector: Selector)

  datatype Resolution = Resolved(handle: Handle) | Raised(error: Error)

  /** `$( selector )`. A string goes to the document's query, or gives an
      empty collection when the host has no query support. A node is wrapped
      in a one-element array. A non-empty list is passed through unchanged.
      Everything else, including an empty list, gives a fresh empty array,
      except null and undefined, which make the `nodeType` test throw. */
  function Resolve(p: Platform, sel: Selector): (r: Resolution)
    ensures r.Raised? <==> sel.Absent? || (sel.Text? && p.hasQuery && p.query(sel.text).None?)
    ensures r.Raised? ==> r.error == (if sel.Absent? then TypeError else SyntaxError)
    ensures r.Resolved? ==> r.handle.selector == sel
    ensures sel.Text? && !p.hasQuery ==> r == Resolved(Handle([], FreshEmpty, sel))
    ensures sel.Text? && p.hasQuery && p.query(sel.text).Some? ==>
              r == Resolved(Handle(p.query(sel.text).value, Queried, sel))
    ensures sel.Node? ==> r == Resolved(Handle([sel.node], WrappedNode, sel))
    ensures sel.List? ==> r.Resolved? && r.handle.elements == sel.items
    ensures r.Resolved? ==> (r.handle.origin == PassedThrough <==> sel.List? && |sel.items| > 0)
    ensures sel.OtherObject? ==> r == Resolved(Handle([], FreshEmpty, sel))
  {
    match sel
    case Text(t) =>
      if !p.hasQuery then Resolved(Handle([], FreshEmpty, sel))
      else (
        match p.query(t)
        case Some(found) => Resolved(Handle(found, Queried, sel))
        case None => Raised(SyntaxError))
    case Node(n) => Resolved(Handle([n], WrappedNode, sel))
    case List(items) =>
      if |items| > 0 then Resolved(Handle(items, PassedThrough, sel))
      else Resolved(Handle([], FreshEmpty, sel))
    case Absent => Raised(TypeError)
    case OtherObject(_) => Resolved(Handle([], FreshEmpty, sel))
  }

  /** A string selector never makes `$` fail on a host without query
      support, and the result is then empty whatever the text. */
  lemma TextWithoutQueryIsEmpty(p: Platform, t: string)
    requires !p.hasQuery
    ensures Resolve(p, Text(t)).Resolved?
    ensures Resolve(p, Text(t)).handle.elements == []
  {
  }

  /** Wrapping the elements of any collection `$` returned gives the same
      elements again; a non-empty one is the very same list. */
  lemma RewrapKeepsElements(p: Platform, sel: Selector)
    requires Resolve(p, sel).Resolved?
    ensures var h := Resolve(p, sel).handle;
            var again := Resolve(p, List(h.elements));
            again.Resolved? && again.handle.elements == h.elements
            && (again.handle.origin == PassedThrough <==> |h.elements| > 0)
  {
  }
}
